=== FILE: README.md ===
# Banking ledger and credential lockout — a Dafny model

This project models the business logic of a small console banking system written in C++:

- **Account ledger entry** (`BankAccount`): a balance plus an append-only transaction
  history. Deposits and withdrawals validate the amount, change the account all-or-nothing,
  and append a transaction whose `balanceAfter` records the new balance.
- **Ledger manager** (the account part of `BankingSystem`): a sequence of accounts and a
  `nextAccountNumber` counter that starts at 1001. It supports lookup, creation, deletion,
  deposit and withdrawal by account number, and the line-oriented snapshot file written by
  `saveToFile` and read by `loadFromFile`.
- **Credential entry** (`User`): the djb2 password hash, authentication, and the
  failed-attempt counter that locks the user after three failures.

Every entity is an immutable datatype and every operation a pure function. The account and
ledger operations that can be refused (deposit, withdraw, create, delete) return the new
state together with a status. For `deposit` and `withdraw`, `Status.Ok` stands for
their `true` result. `createAccount` and `deleteAccount` return nothing; for them `Ok` is the
path that prints no error message. The other constructors name the error that is printed
when an operation is refused: `InvalidAmount`, `InsufficientFunds` or `AccountNotFound`.
The remaining operations (the constructors, `addTransaction`, the credential setters,
`authenticate`) return just the new value or the answer.

Files and modules:

| file | module | models |
|---|---|---|
| `wrappers.dfy` | `Wrappers` | `Option` |
| `account.dfy` | `Accounts` | the operation `Status`, `Transaction`, `Account`, construction, deposit, withdraw |
| `ledger.dfy` | `BankingSystem` | the account collection, the counter, lookup, create, delete |
| `decimal.dfy` | `Decimal` | the number formats of the snapshot lines |
| `lines.dfy` | `Lines` | writing lines with `endl` and reading them with `getline` |
| `snapshot.dfy` | `Snapshot` | `saveToFile` / `loadFromFile` as pure text functions, and the `BankingSystem` constructor that loads the snapshot |
| `password_hash.dfy` | `PasswordHash` | `User::hashPassword` |
| `user.dfy` | `Users` | roles, the credential entry, the lockout state machine |

Representation choices:

- Money is an integer number of cents. The source only compares, adds and subtracts `double`
  values, so no floating-point behaviour is needed.
- A password is a sequence of bytes (0..255). `char` is taken to be signed, as on x86-64
  Linux, so bytes 128..255 add -128..-1 to the hash.
- `unsigned long` is taken to be 64 bits wide, so the hash wraps modulo 2^64.
- The `Account` invariant (`Accounts.WellFormed`) is stated against an independent reference
  definition. `Net` adds up the signed amounts of a history. A well-formed account has a
  balance equal to `Net` of its history, and every entry's `balanceAfter` equals `Net` of the
  prefix that ends at that entry.
- The constructor of `BankAccount` does not check the sign of the opening balance, so
  `NewAccount` accepts any balance, and a negative one leaves the history empty. Only the
  ledger's `createAccount` refuses a negative deposit; `loadFromFile` does not refuse one.
- The `BankingSystem` constructor sets the counter to 1001 and then calls `loadFromFile`.
  `Snapshot.Construct` models both steps, with the snapshot file's text (or its absence) as
  a parameter. `BankingSystem.InitialLedger` is the state before loading, which is also the
  starting state when no snapshot file exists.

## Model

| member | source | states |
|---|---|---|
| `Accounts.KindLabel` | BankAccount.cpp:8-60 | the initial deposit, a deposit and a withdrawal are labelled "Initial Deposit", "Deposit" and "Withdrawal" respectively, and each label belongs to exactly one kind |
| `Accounts.KindLabelRoundTrip` | BankAccount.cpp:8-60 | a stored label reads back as the kind it was written for, so two kinds share a label only when they are the same kind |
| `Accounts.AddTransaction` | BankAccount.cpp:93-100 | appends exactly one entry recording the current balance as `balanceAfter`; the earlier entries, the balance, the number and the holder are unchanged |
| `Accounts.NewAccount` | BankAccount.cpp:8-13 | a positive opening balance yields exactly one InitialDeposit entry with amount and balanceAfter equal to that balance; any other opening balance yields an empty history |
| `Accounts.Deposit` | BankAccount.cpp:29-40 | a non-positive amount is refused with InvalidAmount and the account unchanged; otherwise the call succeeds, the balance rises by the amount, and the history gains exactly one Deposit entry whose balanceAfter is the new balance, with every earlier entry kept; the number and holder never change |
| `Accounts.Withdraw` | BankAccount.cpp:43-60 | succeeds exactly when 0 < amount <= balance; a non-positive amount gives InvalidAmount and an amount above the balance gives InsufficientFunds, both with the account unchanged; on success the balance falls by the amount and one Withdrawal entry with the new balance is appended |
| `Accounts.NewAccountWellFormed` | BankAccount.cpp:8-13 | an account constructed with a non-negative opening balance satisfies the account invariant |
| `Accounts.DepositPreservesWellFormed` | BankAccount.cpp:29-40 | a deposit keeps the invariant: the balance is the net of the history, every snapshot is its running total, and nothing is negative |
| `Accounts.WithdrawPreservesWellFormed` | BankAccount.cpp:43-60 | a withdrawal keeps the invariant, so the balance never goes negative |
| `Accounts.LastEntryMatchesBalance` | BankAccount.cpp:93-100 | in a well-formed account with a non-empty history, the last entry's balanceAfter equals the balance |
| `Accounts.ApplyAllInvariant` | BankAccount.cpp:29-60 | under any sequence of deposits and withdrawals, the invariant holds, the number and holder are unchanged, earlier entries are kept, and the history grows by exactly the number of successful calls |
| `PasswordHash.CharValue` | User.cpp:8-9 | the value a signed `char` adds to the hash lies in -128..127 and is congruent to the byte modulo 256 |
| `PasswordHash.Djb2` | User.cpp:6-10 | the hash word starts at 5381, folds `h*33 + c` for each byte, and always fits in 64 bits |
| `PasswordHash.Djb2IsPolyModWord` | User.cpp:7-10 | wrapping at every step equals the unbounded djb2 polynomial reduced modulo 2^64 |
| `PasswordHash.ToHex` | User.cpp:13-15 | the rendering has exactly the requested width and only lower-case hex digits |
| `PasswordHash.HexRoundTrip` | User.cpp:13-15 | a value below 16^w, rendered in w zero-padded hex digits, reads back as itself, so the rendering loses nothing |
| `PasswordHash.HashPassword` | User.cpp:6-16 | the hash string is always exactly 16 lower-case hex characters |
| `PasswordHash.HashPasswordDecodes` | User.cpp:6-16 | the 16-character hash reads back as the 64-bit hash word, which is the djb2 polynomial modulo 2^64 |
| `PasswordHash.HashEqualIffWordsEqual` | User.cpp:13-15 | two passwords have equal hash strings exactly when their 64-bit hash words are equal |
| `PasswordHash.EmptyPasswordHash` | User.cpp:7-15 | the empty password hashes to the zero-padded seed "0000000000001505" |
| `Users.RoleName` | User.cpp:68-75 | every role is named "Admin", "User" or "Guest"; the "Unknown" default is unreachable |
| `Users.RoleCode` | User.h:7-11 | the enumerators take the codes 0, 1 and 2 |
| `Users.RoleNameAndCodeRoundTrip` | User.cpp:68-75 | the name and the code of a role each identify the role they came from |
| `Users.RoleNameInjective` | User.cpp:68-75 | two roles have the same name exactly when they are the same role |
| `Users.NewCredential` | User.cpp:19-20 | a new credential keeps the given name, hash, role and lock flag, and its counter is 0 |
| `Users.SetLocked` | User.cpp:44-46 | sets the lock flag to the given value and changes nothing else |
| `Users.IncrementFailedAttempts` | User.cpp:48-53 | raises the counter by exactly 1; the result is locked exactly when it was already locked or the counter reached 3, so a lock is never cleared; nothing else changes |
| `Users.ResetFailedAttempts` | User.cpp:55-57 | sets the counter to 0 and leaves the lock flag and everything else unchanged |
| `Users.Authenticate` | User.cpp:60-65 | a locked credential is refused for every password; an unlocked one is accepted exactly when the stored hash equals the hash of the offered password |
| `Users.NewCredentialInvariant` | User.cpp:19-20 | a fresh credential satisfies the lockout invariant (counter >= 0, counter >= 3 implies locked) |
| `Users.TransitionsKeepInvariant` | User.cpp:44-57 | increment, reset and an explicit lock each keep the lockout invariant |
| `Users.UnlockNeedsReset` | User.cpp:44-57 | unlocking together with a reset gives an unlocked credential with a zero counter; clearing the lock alone at a counter of 3 or more breaks the invariant |
| `Users.RegisteredPasswordAuthenticates` | User.cpp:60-65 | an unlocked credential built from `hashPassword(p)` accepts `p` |
| `Users.LockedRejectsEveryPassword` | User.cpp:60-63 | a locked credential rejects every password, including the right one |
| `Users.AuthenticateComparesHashWords` | User.cpp:60-65 | an unlocked credential registered with `q` accepts `p` exactly when the 64-bit hash words of `p` and `q` are equal |
| `Users.RunKeepsInvariant` | User.cpp:48-57 | any sequence of increments and resets keeps the lockout invariant, never changes the name, hash or role, and never clears a lock |
| `Users.LockedIffThreeConsecutiveFailures` | User.cpp:48-57 | starting unlocked at 0, the counter equals the number of failures since the last reset, and the user is locked exactly when three failures ever came in a row with no reset between them |
| `Users.LockoutScenario` | User.cpp:44-65 | worked run: two failures leave the user unlocked, a third locks it, the right password is then refused, and after unlock plus reset the right password is accepted |
| `BankingSystem.InitialLedger` | BankingSystem.cpp:11-11 | before any snapshot is loaded, the system has no accounts and the counter at 1001 |
| `BankingSystem.FindFrom` | BankingSystem.cpp:16-23 | the linear scan from a position returns the first position at or after it that holds the number, or -1 exactly when none does |
| `BankingSystem.FindAccountIndex` | BankingSystem.cpp:16-23 | returns the least index whose account has the number, or -1 exactly when no account has it |
| `BankingSystem.FindAccount` | BankingSystem.cpp:45-51 | returns nothing (the null pointer) exactly when no account has the number; otherwise returns the account at the least index holding that number, the one `findAccountIndex` finds, even when a loaded snapshot holds the number twice |
| `BankingSystem.FindAccountIndexExact` | BankingSystem.cpp:16-23 | when numbers are unique, looking up an account's number finds that account at its own position |
| `BankingSystem.CreateAccount` | BankingSystem.cpp:26-42 | a negative deposit is refused and both the accounts and the counter are unchanged; otherwise exactly one account is appended: the one the `BankAccount` constructor builds from the old counter, the name and the deposit, so a positive deposit is recorded as its Initial Deposit entry; existing accounts are untouched, the new account is well formed, and the counter rises by 1 |
| `BankingSystem.DeleteAccount` | BankingSystem.cpp:54-63 | an absent number is refused with the ledger unchanged; otherwise exactly the first account with that number is erased, the others keep their order, and the counter never changes |
| `BankingSystem.DepositTo` | BankingSystem.cpp:235-257 | an absent number gives AccountNotFound and changes nothing; otherwise the found account is replaced in place by the result of the deposit, and the counter stays |
| `BankingSystem.WithdrawFrom` | BankingSystem.cpp:259-281 | an absent number gives AccountNotFound and changes nothing; otherwise the found account is replaced in place by the result of the withdrawal, and the counter stays |
| `BankingSystem.InitialLedgerValid` | BankingSystem.cpp:11-11 | the starting ledger satisfies the ledger invariant |
| `BankingSystem.CreateKeepsValid` | BankingSystem.cpp:26-42 | creation keeps numbers distinct and inside [1001, counter), keeps every account well formed, and brings in no number other than the old counter |
| `BankingSystem.EraseNumbers` | BankingSystem.cpp:62-62 | erasing one position from accounts with unique numbers keeps them unique and removes exactly that position's number |
| `BankingSystem.DeleteKeepsValid` | BankingSystem.cpp:54-63 | deletion keeps the ledger invariant and removes exactly the deleted number from the set of numbers |
| `BankingSystem.DepositToKeepsValid` | BankingSystem.cpp:235-257 | a deposit through the ledger keeps the invariant and the set of numbers |
| `BankingSystem.WithdrawFromKeepsValid` | BankingSystem.cpp:259-281 | a withdrawal through the ledger keeps the invariant and the set of numbers |
| `BankingSystem.PerformKeepsValid` | BankingSystem.cpp:26-63 | each ledger operation keeps the invariant, advances the counter by one exactly when it creates an account, and brings in no number other than the one it creates |
| `BankingSystem.RunKeepsValid` | BankingSystem.cpp:26-63 | under any sequence of create, delete, deposit and withdraw: the invariant holds, the counter never decreases, the issued numbers strictly increase and lie between the old and new counter, and every account present existed before or was created in the run |
| `BankingSystem.NumbersNeverReused` | BankingSystem.cpp:32-40 | a number in use is never issued again by any later sequence of operations, including after its account is deleted |
| `BankingSystem.IssuedFromInitial` | BankingSystem.cpp:11-40 | from the ledger the constructor builds when no snapshot file exists, the k-th successful creation gets number 1001 + k, and the counter is 1001 plus the number of creations |
| `BankingSystem.AliceScenario` | BankingSystem.cpp:26-51 | worked run: "Alice" opening with 100.00 gets number 1001 and one initial-deposit entry; depositing 50.00 gives 150.00; withdrawing 200.00 is refused as InsufficientFunds with nothing changed; withdrawing 150.00 leaves 0.00 and three history entries |
| `Decimal.NatToString` | BankingSystem.cpp:101-101 | a count is written as at least one decimal digit with no leading zero |
| `Decimal.IntToString` | BankingSystem.cpp:98-98 | an integer is written as decimal digits, with a minus sign only when negative |
| `Decimal.CentsToString` | BankingSystem.cpp:107-107 | an amount is written with exactly two digits after the point, and only digits, the point and a minus sign appear |
| `Decimal.NatToStringRoundTrip` | BankingSystem.cpp:101-101 | the decimal rendering of a count reads back as the same count |
| `Decimal.IntToStringRoundTrip` | BankingSystem.cpp:98-98 | the decimal rendering of any integer, negative or not, reads back as the same integer |
| `Decimal.CentsToStringRoundTrip` | BankingSystem.cpp:107-107 | the two-decimal rendering of any amount of cents reads back as the same amount |
| `Lines.Join` | BankingSystem.cpp:98-108 | the written text is empty exactly when there are no lines |
| `Lines.Split` | BankingSystem.cpp:138-142 | every line read back is free of newlines |
| `Lines.SplitJoin` | BankingSystem.cpp:138-142 | lines without embedded newlines, written with `endl`, read back with `getline` as the same lines |
| `Snapshot.RecordLines` | BankingSystem.cpp:105-107 | one account is written as three lines, the second of which is the holder name as it is |
| `Snapshot.AccountLines` | BankingSystem.cpp:104-108 | each account contributes exactly three lines |
| `Snapshot.AccountLinesAt` | BankingSystem.cpp:104-108 | the k-th account's record occupies lines 3k to 3k+2 of the record lines, in the order of the accounts |
| `Snapshot.SaveLines` | BankingSystem.cpp:97-108 | the snapshot has 2 + 3n lines for n accounts; the first reads back as the counter, the second as the number of accounts, and the rest are the account records |
| `Snapshot.SaveLinesSplitBack` | BankingSystem.cpp:97-108 | when no holder name contains a newline, the written text reads back line by line as exactly the snapshot lines |
| `Snapshot.Save` | BankingSystem.cpp:90-112 | the written text is non-empty and ends with a newline, and when no holder name contains a newline `getline` recovers exactly the snapshot lines |
| `Snapshot.ParseRecord` | BankingSystem.cpp:138-145 | a record reads successfully exactly when its number and balance lines both parse; the account then has the parsed number, the holder line as its name, the parsed balance, and at most one history entry |
| `Snapshot.ReadRecords` | BankingSystem.cpp:133-146 | a successful read of `count` records yields exactly `count` of them and uses at least 3 * `count` lines |
| `Snapshot.ReadRecordsAt` | BankingSystem.cpp:133-146 | the k-th record read is the one parsed from lines 3k, 3k+1 and 3k+2 |
| `Snapshot.LoadAccounts` | BankingSystem.cpp:133-146 | a successful read of `count` accounts yields exactly `count` accounts from at least 3 * `count` lines |
| `Snapshot.LoadAccountsAt` | BankingSystem.cpp:138-145 | the k-th account read is the one parsed from lines 3k, 3k+1 and 3k+2 |
| `Snapshot.LoadLines` | BankingSystem.cpp:122-146 | a successful load takes the counter from the first line and reads as many accounts as the second line asks for (none for a negative count), from the lines that follow |
| `Snapshot.Load` | BankingSystem.cpp:115-155 | a loaded ledger's counter is the first line of the text, and its number of accounts is what the second line asks for, with three lines present for each |
| `Snapshot.Construct` | BankingSystem.cpp:11-13 | with no snapshot file the system starts empty with the counter at 1001; with a file, a successful load takes the counter from its first line |
| `Snapshot.ConstructKeepsValid` | BankingSystem.cpp:11-13 | a restart from the snapshot a valid ledger saved gives back a valid ledger with the same counter and every account's number, holder and balance; a start with no file gives a valid empty ledger |
| `Snapshot.ReloadedAt` | BankingSystem.cpp:144-145 | the k-th reloaded account is the constructor applied to the k-th stored number, holder and balance, so order is kept |
| `Snapshot.RecordRoundTrip` | BankingSystem.cpp:104-108 | the three lines written for one account read back as the constructor applied to its number, holder and balance |
| `Snapshot.AccountLinesRoundTrip` | BankingSystem.cpp:133-146 | reading back the record lines of a sequence of accounts recovers every number, holder and balance in order, whatever lines follow them |
| `Snapshot.SaveLoadRoundTrip` | BankingSystem.cpp:90-155 | when no holder name contains a newline, loading a saved snapshot gives back the counter and every account's number, holder and balance in order |
| `Snapshot.ReloadDropsHistory` | BankingSystem.cpp:144-145 | a reloaded account has the old number, holder and balance, but its history is a single InitialDeposit entry when the balance is positive and empty otherwise |
| `Snapshot.ReloadKeepsValid` | BankingSystem.cpp:133-146 | reloading a valid ledger gives a valid ledger |

## Left out

- Console output is not modelled: `displayAccountInfo`, `displayTransactionHistory`, `listAllAccounts`, `displayMenu` and the messages printed by every operation. It is pure output and carries no state.
- The `run` menu loop is not modelled, except its deposit and withdrawal cases (`DepositTo`, `WithdrawFrom`). The rest reads input and calls either the operations modelled here or the display and export functions listed in this section.
- `exportToJSON` is not modelled. It only formats text one way and does not escape holder names, so there is no inverse to state.
- File streams are not modelled: opening the file, the failed-open branch of `saveToFile`, and the `bool` results of both functions. `Save` and `Load` are the text written and read. A missing snapshot file is the `None` argument of `Construct`.
- The users store and its operations are not modelled: `login`, `registerUser`, `registerNewUser`, `manageUsers`, `unlockAccount`, `viewSystemLogs`, `saveUsers`, `loadUsers`, `createDefaultUsers`, the role menus and sessions, and `currentUser`. BankingSystem.h declares them, but their implementation is not part of this model. `UnlockNeedsReset` and `LockoutScenario` state the unlock pairing (clear the lock, then reset) that such a workflow would use.
- Transaction timestamps (`time(0)`) are left out. They are nondeterministic and no invariant depends on them.
- IEEE `double` rounding and the precision loss of `setprecision(2)` are left out. Amounts are exact integer cents.
- The getters are represented by datatype fields.
- Snapshot.Construct: returns `None` where `loadFromFile` would read a text `Save` could not have written; the C++ constructor would then go on with whatever the stream left in the counter and the accounts, which the model does not reproduce.
- Snapshot.Load: reads each number line with `ParseInt` (an optional `-` and one or more decimal digits, leading zeros and `-0` included) and each balance line with `ParseCents` (the same, then a point and exactly two digits). Lines after the last record are ignored. Any other number or balance line makes the load return `None`. A C++ stream would also skip leading whitespace, accept a `+` sign or any `double` notation, and leave partly read or default values. The model does not reproduce that.
- Decimal.ParseInt: reads a number of any magnitude. `>>` into an `int` (the counter, the count and each account number) fails outside [-2^31, 2^31): it sets the stream's failbit, stores the nearest limit, and every later read fails. The model does not reproduce that, and reads such a line as the unbounded value.
- BankingSystem.CreateAccount: does not model 32-bit `int` overflow of `nextAccountNumber` beyond 2147483647. Overflow is undefined behaviour in C++ and needs two billion creations.
- Users.IncrementFailedAttempts: does not model 32-bit `int` overflow of `failedAttempts`. That is undefined behaviour and needs two billion failures.
- Users.Authenticate: cannot show that a locked user is refused before any hash is computed. A pure function has no observable evaluation order. The contract states that the result is false for every password.
- PasswordHash.Djb2: fixes `unsigned long` at 64 bits and `char` as signed. On a platform with a 32-bit `long` or an unsigned `char`, the hash differs.

=== FILE: account.dfy ===
/** One account of the ledger: a balance in cents and an append-only
    transaction history (BankAccount.h / BankAccount.cpp). */
module Accounts {
  import opened Wrappers

  /** How an account or ledger operation ended. For `deposit` and `withdraw`, `Ok` is their
      `true` result. For `createAccount` and `deleteAccount`, which return nothing, `Ok` is the
      path that prints no error. Every other constructor names the error message printed when
      the operation is refused, which leaves everything unchanged. */
  datatype Status = Ok | InvalidAmount | InsufficientFunds | AccountNotFound

  /** The three kinds of entry the account ever writes. */
  datatype TxKind = InitialDepositKind | DepositKind | WithdrawalKind

  /** The label stored in `Transaction.type` for each kind: each kind has its own label. */
  function KindLabel(k: TxKind): (s: string)
    ensures s == "Initial Deposit" <==> k == InitialDepositKind
    ensures s == "Deposit" <==> k == DepositKind
    ensures s == "Withdrawal" <==> k == WithdrawalKind
  {
    match k
    case InitialDepositKind => "Initial Deposit"
    case DepositKind => "Deposit"
    case WithdrawalKind => "Withdrawal"
  }

  /** Reads a stored label back as its kind; any other text names no kind. */
  function KindFromLabel(s: string): (k: Option<TxKind>)
    ensures k.Some? <==> s in {"Initial Deposit", "Deposit", "Withdrawal"}
  {
    if s == "Initial Deposit" then Some(InitialDepositKind)
    else if s == "Deposit" then Some(DepositKind)
    else if s == "Withdrawal" then Some(WithdrawalKind)
    else None
  }

  /** The label identifies the kind it was written for, so distinct kinds have distinct labels. */
  lemma KindLabelRoundTrip(k: TxKind, q: TxKind)
    ensures KindFromLabel(KindLabel(k)) == Some(k)
    ensures KindLabel(k) == KindLabel(q) <==> k == q
  {
  }

  /** One history entry; `balanceAfter` snapshots the balance right after it. */
  datatype Transaction = Transaction(kind: TxKind, amount: int, balanceAfter: int)

  datatype Account = Account(number: int, holder: string, balance: int, history: seq<Transaction>)

  /** The result of a deposit or withdrawal: the status and the account afterwards. */
  datatype Outcome = Outcome(status: Status, account: Account)

  // ---------------------------------------------------------------------------
  // Reference definition: what a history says the balance is.
  // ---------------------------------------------------------------------------

  /** The signed effect of one transaction on the balance. */
  function Effect(t: Transaction): int {
    if t.kind == WithdrawalKind then -t.amount else t.amount
  }

  /** The balance a history adds up to, starting from zero. */
  function Net(h: seq<Transaction>): int {
    if |h| == 0 then 0 else Net(h[..|h| - 1]) + Effect(h[|h| - 1])
  }

  /** Every entry is a positive movement, its snapshot is the running total and is
      never negative, and only the first entry may be the initial deposit. */
  predicate ConsistentHistory(h: seq<Transaction>) {
    forall i :: 0 <= i < |h| ==>
      && h[i].amount > 0
      && h[i].balanceAfter == Net(h[..i + 1])
      && h[i].balanceAfter >= 0
      && (h[i].kind == InitialDepositKind ==> i == 0)
  }

  /** The account invariant: the balance is what the history adds up to and is not negative. */
  predicate WellFormed(a: Account) {
    && ConsistentHistory(a.history)
    && a.balance == Net(a.history)
    && a.balance >= 0
  }

  /** The history `h'` keeps every entry of `h` in place. */
  predicate Extends(h: seq<Transaction>, h': seq<Transaction>) {
    |h| <= |h'| && h'[..|h|] == h
  }

  // ---------------------------------------------------------------------------
  // Operations
  // ---------------------------------------------------------------------------

  /** Appends an entry of the given kind whose snapshot is the current balance. */
  function AddTransaction(a: Account, kind: TxKind, amount: int): (a': Account)
    ensures a'.number == a.number && a'.holder == a.holder && a'.balance == a.balance
    ensures |a'.history| == |a.history| + 1 && Extends(a.history, a'.history)
    ensures a'.history[|a.history|] == Transaction(kind, amount, a.balance)
  {
    a.(history := a.history + [Transaction(kind, amount, a.balance)])
  }

  /** The constructor: a positive opening balance is recorded as an initial deposit;
      any other opening balance (the constructor does not check its sign) leaves the history empty. */
  function NewAccount(number: int, holder: string, initialBalance: int): (a: Account)
    ensures a.number == number && a.holder == holder && a.balance == initialBalance
    ensures initialBalance > 0 ==> a.history == [Transaction(InitialDepositKind, initialBalance, initialBalance)]
    ensures initialBalance <= 0 ==> a.history == []
  {
    var a := Account(number, holder, initialBalance, []);
    if initialBalance > 0 then AddTransaction(a, InitialDepositKind, initialBalance) else a
  }

  /** Deposits `amount` cents; a non-positive amount is refused with no change. */
  function Deposit(a: Account, amount: int): (r: Outcome)
    ensures r.account.number == a.number && r.account.holder == a.holder
    ensures r.status == Ok <==> amount > 0
    ensures r.status != Ok ==> r.status == InvalidAmount && r.account == a
    ensures r.status == Ok ==>
      && r.account.balance == a.balance + amount
      && |r.account.history| == |a.history| + 1
      && Extends(a.history, r.account.history)
      && r.account.history[|a.history|] == Transaction(DepositKind, amount, r.account.balance)
  {
    if amount <= 0 then Outcome(InvalidAmount, a)
    else Outcome(Ok, AddTransaction(a.(balance := a.balance + amount), DepositKind, amount))
  }

  /** Withdraws `amount` cents; a non-positive amount, or one above the balance, is refused with no change. */
  function Withdraw(a: Account, amount: int): (r: Outcome)
    ensures r.account.number == a.number && r.account.holder == a.holder
    ensures r.status == Ok <==> 0 < amount <= a.balance
    ensures amount <= 0 ==> r.status == InvalidAmount
    ensures 0 < amount && a.balance < amount ==> r.status == InsufficientFunds
    ensures r.status != Ok ==> r.account == a
    ensures r.status == Ok ==>
      && r.account.balance == a.balance - amount
      && |r.account.history| == |a.history| + 1
      && Extends(a.history, r.account.history)
      && r.account.history[|a.history|] == Transaction(WithdrawalKind, amount, r.account.balance)
  {
    if amount <= 0 then Outcome(InvalidAmount, a)
    else if amount > a.balance then Outcome(InsufficientFunds, a)
    else Outcome(Ok, AddTransaction(a.(balance := a.balance - amount), WithdrawalKind, amount))
  }

  // ---------------------------------------------------------------------------
  // Invariant lemmas
  // ---------------------------------------------------------------------------

  /** Appending one entry adds its effect to the net balance and leaves earlier prefixes alone. */
  lemma {:induction false} NetSnoc(h: seq<Transaction>, t: Transaction)
    ensures Net(h + [t]) == Net(h) + Effect(t)
    ensures forall i :: 0 <= i <= |h| ==> (h + [t])[..i] == h[..i]
  {
    assert (h + [t])[..|h + [t]| - 1] == h;
  }

  /** Appending an entry that snapshots the running total keeps a history consistent. */
  lemma {:induction false} AppendConsistent(h: seq<Transaction>, t: Transaction)
    requires ConsistentHistory(h)
    requires t.amount > 0 && t.kind != InitialDepositKind
    requires t.balanceAfter == Net(h) + Effect(t) && t.balanceAfter >= 0
    ensures ConsistentHistory(h + [t])
  {
    var h' := h + [t];
    NetSnoc(h, t);
    forall i | 0 <= i < |h'|
      ensures h'[i].balanceAfter == Net(h'[..i + 1])
    {
      if i < |h| {
        assert h'[..i + 1] == h[..i + 1];
      } else {
        assert h'[..i + 1] == h';
      }
    }
  }

  /** Every account the constructor builds from a non-negative opening balance is well formed. */
  lemma NewAccountWellFormed(number: int, holder: string, initialBalance: int)
    requires initialBalance >= 0
    ensures WellFormed(NewAccount(number, holder, initialBalance))
  {
    var a := NewAccount(number, holder, initialBalance);
    if initialBalance > 0 {
      assert a.history[..1] == a.history;
      assert Net(a.history) == initialBalance by {
        assert a.history[..0] == [];
      }
    }
  }

  /** Deposits keep the account invariant, so the balance never goes negative. */
  lemma {:induction false} DepositPreservesWellFormed(a: Account, amount: int)
    requires WellFormed(a)
    ensures WellFormed(Deposit(a, amount).account)
  {
    if amount > 0 {
      var t := Transaction(DepositKind, amount, a.balance + amount);
      assert Deposit(a, amount).account == a.(balance := t.balanceAfter, history := a.history + [t]);
      AppendConsistent(a.history, t);
      NetSnoc(a.history, t);
    }
  }

  /** Withdrawals keep the account invariant, so the balance never goes negative. */
  lemma {:induction false} WithdrawPreservesWellFormed(a: Account, amount: int)
    requires WellFormed(a)
    ensures WellFormed(Withdraw(a, amount).account)
  {
    if 0 < amount <= a.balance {
      var t := Transaction(WithdrawalKind, amount, a.balance - amount);
      assert Withdraw(a, amount).account == a.(balance := t.balanceAfter, history := a.history + [t]);
      AppendConsistent(a.history, t);
      NetSnoc(a.history, t);
    }
  }

  /** In a well-formed account with a history, the last entry agrees with the balance. */
  lemma LastEntryMatchesBalance(a: Account)
    requires WellFormed(a) && |a.history| > 0
    ensures a.history[|a.history| - 1].balanceAfter == a.balance
    ensures a.balance >= 0
  {
    assert a.history[..|a.history|] == a.history;
  }

  // ---------------------------------------------------------------------------
  // Runs of operations
  // ---------------------------------------------------------------------------

  datatype AccountOp = DepositOp(amount: int) | WithdrawOp(amount: int)

  function Apply(a: Account, op: AccountOp): Outcome {
    match op
    case DepositOp(amount) => Deposit(a, amount)
    case WithdrawOp(amount) => Withdraw(a, amount)
  }

  /** The account after performing `ops` in order, and how many of them succeeded. */
  function ApplyAll(a: Account, ops: seq<AccountOp>): (Account, nat)
    decreases |ops|
  {
    if |ops| == 0 then (a, 0)
    else
      var (b, n) := ApplyAll(a, ops[..|ops| - 1]);
      var r := Apply(b, ops[|ops| - 1]);
      (r.account, if r.status == Ok then n + 1 else n)
  }

  /** Under any run of deposits and withdrawals: the invariant holds throughout, the
      number and holder never change, and the history only grows, by one entry per success. */
  lemma {:induction false} ApplyAllInvariant(a: Account, ops: seq<AccountOp>)
    requires WellFormed(a)
    ensures var (b, n) := ApplyAll(a, ops);
      && WellFormed(b)
      && b.number == a.number && b.holder == a.holder
      && Extends(a.history, b.history)
      && |b.history| == |a.history| + n
      && n <= |ops|
  {
    if |ops| > 0 {
      var prefix := ops[..|ops| - 1];
      ApplyAllInvariant(a, prefix);
      var (b, n) := ApplyAll(a, prefix);
      match ops[|ops| - 1]
      case DepositOp(amount) => DepositPreservesWellFormed(b, amount);
      case WithdrawOp(amount) => WithdrawPreservesWellFormed(b, amount);
      var c := Apply(b, ops[|ops| - 1]).account;
      assert c.history[..|a.history|] == b.history[..|a.history|];
    }
  }
}

=== FILE: decimal.dfy ===
/** Decimal text for the snapshot lines: integers as `operator<<` writes them for
    `int` and `size_t`, and money as `fixed << setprecision(2)` writes it, with cents
    standing in for the source's `double`. */
module Decimal {
  import opened Wrappers

  predicate IsDigit(c: char) {
    '0' <= c <= '9'
  }

  predicate AllDigits(s: string) {
    forall i :: 0 <= i < |s| ==> IsDigit(s[i])
  }

  function DigitChar(d: nat): (c: char)
    requires d < 10
    ensures IsDigit(c)
  {
    "0123456789"[d]
  }

  function DigitValue(c: char): (d: nat)
    requires IsDigit(c)
    ensures d < 10
  {
    c as int - '0' as int
  }

  /** `n` in decimal, with no leading zero except for zero itself. */
  function NatToString(n: nat): (s: string)
    ensures |s| >= 1 && AllDigits(s)
    ensures |s| > 1 ==> s[0] != '0'
  {
    if n < 10 then [DigitChar(n)] else NatToString(n / 10) + [DigitChar(n % 10)]
  }

  /** The number a string of digits denotes. */
  function DigitsValue(s: string): nat
    requires AllDigits(s)
  {
    if |s| == 0 then 0 else DigitsValue(s[..|s| - 1]) * 10 + DigitValue(s[|s| - 1])
  }

  lemma {:induction false} NatToStringRoundTrip(n: nat)
    ensures DigitsValue(NatToString(n)) == n
  {
    if n >= 10 {
      var s := NatToString(n);
      assert s[..|s| - 1] == NatToString(n / 10);
      NatToStringRoundTrip(n / 10);
    }
  }

  /** An optional minus sign followed by the digits of the magnitude. */
  function IntToString(i: int): (s: string)
    ensures |s| >= 1
    ensures i >= 0 ==> AllDigits(s)
    ensures forall k :: 0 <= k < |s| ==> IsDigit(s[k]) || s[k] == '-'
  {
    if i < 0 then "-" + NatToString(-i) else NatToString(i)
  }

  function ParseInt(s: string): Option<int> {
    var negative := |s| > 0 && s[0] == '-';
    var digits := if negative then s[1..] else s;
    if |digits| > 0 && AllDigits(digits) then
      var n: int := DigitsValue(digits);
      Some(if negative then -n else n)
    else None
  }

  lemma IntToStringRoundTrip(i: int)
    ensures ParseInt(IntToString(i)) == Some(i)
  {
    var s := IntToString(i);
    if i < 0 {
      NatToStringRoundTrip(-i);
      assert s[0] == '-' && s[1..] == NatToString(-i);
    } else {
      NatToStringRoundTrip(i);
      assert IsDigit(s[0]);
    }
  }

  /** A non-negative amount of cents with two decimals: whole units, a point and two digits. */
  function UnsignedCentsToString(m: nat): (s: string)
    ensures |s| >= 4 && s[|s| - 3] == '.' && IsDigit(s[0])
    ensures forall k :: 0 <= k < |s| ==> IsDigit(s[k]) || s[k] == '.'
  {
    NatToString(m / 100) + ['.', DigitChar(m % 100 / 10), DigitChar(m % 10)]
  }

  /** Reads `D+.DD` back as cents; any other text is refused. */
  function ParseUnsignedCents(s: string): Option<nat> {
    if |s| >= 4 && s[|s| - 3] == '.' && AllDigits(s[..|s| - 3])
      && IsDigit(s[|s| - 2]) && IsDigit(s[|s| - 1])
    then Some(DigitsValue(s[..|s| - 3]) * 100 + DigitValue(s[|s| - 2]) * 10 + DigitValue(s[|s| - 1]))
    else None
  }

  /** An amount of cents as `fixed << setprecision(2)` prints it, with a minus sign when negative. */
  function CentsToString(c: int): (s: string)
    ensures |s| >= 4 && s[|s| - 3] == '.'
    ensures forall k :: 0 <= k < |s| ==> IsDigit(s[k]) || s[k] == '.' || s[k] == '-'
  {
    if c < 0 then "-" + UnsignedCentsToString(-c) else UnsignedCentsToString(c)
  }

  function ParseCents(s: string): Option<int> {
    var negative := |s| > 0 && s[0] == '-';
    match ParseUnsignedCents(if negative then s[1..] else s)
    case Some(m) => var v: int := m; Some(if negative then -v else v)
    case None => None
  }

  lemma DigitRoundTrip(d: nat)
    requires d < 10
    ensures DigitValue(DigitChar(d)) == d
  {
  }

  /** Whole units, tens of cents and cents put back together. */
  lemma CentsDigits(m: nat)
    ensures m == (m / 100) * 100 + (m % 100 / 10) * 10 + m % 10
  {
    var q, r := m / 100, m % 100;
    assert m == q * 100 + r;
    assert r == (r / 10) * 10 + r % 10;
    assert m == (q * 10 + r / 10) * 10 + r % 10;
    assert m % 10 == r % 10;
  }

  /** The last three characters come back off a string that ends with them. */
  lemma LastThree(w: string, x: char, y: char, z: char)
    ensures var s := w + [x, y, z];
      |s| == |w| + 3 && s[..|s| - 3] == w && s[|s| - 3] == x && s[|s| - 2] == y && s[|s| - 1] == z
  {
  }

  lemma UnsignedCentsRoundTrip(m: nat)
    ensures ParseUnsignedCents(UnsignedCentsToString(m)) == Some(m)
  {
    var whole := NatToString(m / 100);
    var tens, units := m % 100 / 10, m % 10;
    LastThree(whole, '.', DigitChar(tens), DigitChar(units));
    NatToStringRoundTrip(m / 100);
    DigitRoundTrip(tens);
    DigitRoundTrip(units);
    CentsDigits(m);
  }

  lemma CentsToStringRoundTrip(c: int)
    ensures ParseCents(CentsToString(c)) == Some(c)
  {
    var s := CentsToString(c);
    if c < 0 {
      UnsignedCentsRoundTrip(-c);
      assert s[0] == '-' && s[1..] == UnsignedCentsToString(-c);
    } else {
      UnsignedCentsRoundTrip(c);
    }
  }
}

=== FILE: ledger.dfy ===
/** The account collection of BankingSystem: a sequence of accounts and the counter
    that numbers new accounts (BankingSystem.h / BankingSystem.cpp). */
module BankingSystem {
  import opened Wrappers
  import opened Accounts

  /** The number the first account gets; the constructor starts the counter here. */
  const FirstAccountNumber: int := 1001

  datatype Ledger = Ledger(accounts: seq<Account>, nextAccountNumber: int)

  /** The result of a ledger operation: the status and the ledger afterwards. */
  datatype LedgerOutcome = LedgerOutcome(status: Status, ledger: Ledger)

  /** The constructor, before any snapshot is loaded. */
  function InitialLedger(): (l: Ledger)
    ensures l.accounts == [] && l.nextAccountNumber == FirstAccountNumber
  {
    Ledger([], FirstAccountNumber)
  }

  /** The account numbers present. */
  function Numbers(accounts: seq<Account>): set<int> {
    set a | a in accounts :: a.number
  }

  // ---------------------------------------------------------------------------
  // Invariant
  // ---------------------------------------------------------------------------

  predicate UniqueNumbers(accounts: seq<Account>) {
    forall i, j :: 0 <= i < j < |accounts| ==> accounts[i].number != accounts[j].number
  }

  /** Every number present was handed out by the counter: at least the first number, below the counter. */
  predicate NumbersIssued(l: Ledger) {
    && FirstAccountNumber <= l.nextAccountNumber
    && forall i :: 0 <= i < |l.accounts| ==>
         FirstAccountNumber <= l.accounts[i].number < l.nextAccountNumber
  }

  predicate AllWellFormed(accounts: seq<Account>) {
    forall i :: 0 <= i < |accounts| ==> WellFormed(accounts[i])
  }

  predicate Valid(l: Ledger) {
    UniqueNumbers(l.accounts) && NumbersIssued(l) && AllWellFormed(l.accounts)
  }

  // ---------------------------------------------------------------------------
  // Lookup
  // ---------------------------------------------------------------------------

  /** The first position at or after `from` holding account `n`, or -1. */
  function FindFrom(accounts: seq<Account>, n: int, from: nat): (i: int)
    requires from <= |accounts|
    ensures i == -1 || from <= i < |accounts|
    ensures i >= 0 ==> accounts[i].number == n
    ensures i >= 0 ==> forall j :: from <= j < i ==> accounts[j].number != n
    ensures i == -1 <==> forall j :: from <= j < |accounts| ==> accounts[j].number != n
    decreases |accounts| - from
  {
    if from == |accounts| then -1
    else if accounts[from].number == n then from
    else FindFrom(accounts, n, from + 1)
  }

  /** BankingSystem::findAccountIndex: the least index holding account `n`, or -1 when none does. */
  function FindAccountIndex(l: Ledger, n: int): (i: int)
    ensures -1 <= i < |l.accounts|
    ensures i >= 0 ==> l.accounts[i].number == n && forall j :: 0 <= j < i ==> l.accounts[j].number != n
    ensures i == -1 <==> n !in Numbers(l.accounts)
  {
    var i := FindFrom(l.accounts, n, 0);
    assert i == -1 ==> forall a | a in l.accounts :: a.number != n;
    i
  }

  /** BankingSystem::findAccount: the first account numbered `n`, or nothing (the null pointer). */
  function FindAccount(l: Ledger, n: int): (r: Option<Account>)
    ensures r.None? <==> n !in Numbers(l.accounts)
    ensures r.Some? ==> r.value in l.accounts && r.value.number == n
    ensures r.Some? ==> FindAccountIndex(l, n) >= 0 && r.value == l.accounts[FindAccountIndex(l, n)]
  {
    var i := FindAccountIndex(l, n);
    if i != -1 then Some(l.accounts[i]) else None
  }

  /** With unique numbers, lookup finds each account at its own position. */
  lemma FindAccountIndexExact(l: Ledger, k: int)
    requires UniqueNumbers(l.accounts) && 0 <= k < |l.accounts|
    ensures FindAccountIndex(l, l.accounts[k].number) == k
    ensures FindAccount(l, l.accounts[k].number) == Some(l.accounts[k])
  {
  }

  // ---------------------------------------------------------------------------
  // Operations
  // ---------------------------------------------------------------------------

  /** BankingSystem::createAccount: a negative opening deposit is refused with no change; otherwise
      the account the constructor builds, numbered by the counter, is appended and the counter
      moves on by one. */
  function CreateAccount(l: Ledger, name: string, initialDeposit: int): (r: LedgerOutcome)
    ensures initialDeposit < 0 ==> r.status == InvalidAmount && r.ledger == l
    ensures initialDeposit >= 0 ==>
      var accts := r.ledger.accounts;
      && r.status == Ok
      && r.ledger.nextAccountNumber == l.nextAccountNumber + 1
      && |accts| == |l.accounts| + 1
      && accts[..|l.accounts|] == l.accounts
      && accts[|l.accounts|].number == l.nextAccountNumber
      && accts[|l.accounts|].holder == name
      && accts[|l.accounts|].balance == initialDeposit
      && accts[|l.accounts|] == NewAccount(l.nextAccountNumber, name, initialDeposit)
      && WellFormed(accts[|l.accounts|])
  {
    if initialDeposit < 0 then LedgerOutcome(InvalidAmount, l)
    else
      var a := NewAccount(l.nextAccountNumber, name, initialDeposit);
      NewAccountWellFormed(l.nextAccountNumber, name, initialDeposit);
      LedgerOutcome(Ok, Ledger(l.accounts + [a], l.nextAccountNumber + 1))
  }

  /** BankingSystem::deleteAccount: an absent number is refused with no change; otherwise the
      first account with that number is erased, the others keep their order, and the counter stays. */
  function DeleteAccount(l: Ledger, n: int): (r: LedgerOutcome)
    ensures r.ledger.nextAccountNumber == l.nextAccountNumber
    ensures r.status == Ok <==> n in Numbers(l.accounts)
    ensures r.status != Ok ==> r.status == AccountNotFound && r.ledger == l
    ensures r.status == Ok ==>
      var i := FindAccountIndex(l, n);
      && |r.ledger.accounts| == |l.accounts| - 1
      && r.ledger.accounts[..i] == l.accounts[..i]
      && r.ledger.accounts[i..] == l.accounts[i + 1..]
  {
    var i := FindAccountIndex(l, n);
    if i == -1 then LedgerOutcome(AccountNotFound, l)
    else LedgerOutcome(Ok, l.(accounts := l.accounts[..i] + l.accounts[i + 1..]))
  }

  /** The deposit menu case: find the account, deposit into it in place. */
  function DepositTo(l: Ledger, n: int, amount: int): (r: LedgerOutcome)
    ensures r.ledger.nextAccountNumber == l.nextAccountNumber
    ensures r.status == AccountNotFound <==> n !in Numbers(l.accounts)
    ensures r.status == AccountNotFound ==> r.ledger == l
    ensures r.status != AccountNotFound ==>
      var i := FindAccountIndex(l, n);
      var d := Deposit(l.accounts[i], amount);
      r.status == d.status && r.ledger.accounts == l.accounts[i := d.account]
  {
    var i := FindAccountIndex(l, n);
    if i == -1 then LedgerOutcome(AccountNotFound, l)
    else
      var d := Deposit(l.accounts[i], amount);
      LedgerOutcome(d.status, l.(accounts := l.accounts[i := d.account]))
  }

  /** The withdrawal menu case: find the account, withdraw from it in place. */
  function WithdrawFrom(l: Ledger, n: int, amount: int): (r: LedgerOutcome)
    ensures r.ledger.nextAccountNumber == l.nextAccountNumber
    ensures r.status == AccountNotFound <==> n !in Numbers(l.accounts)
    ensures r.status == AccountNotFound ==> r.ledger == l
    ensures r.status != AccountNotFound ==>
      var i := FindAccountIndex(l, n);
      var w := Withdraw(l.accounts[i], amount);
      r.status == w.status && r.ledger.accounts == l.accounts[i := w.account]
  {
    var i := FindAccountIndex(l, n);
    if i == -1 then LedgerOutcome(AccountNotFound, l)
    else
      var w := Withdraw(l.accounts[i], amount);
      LedgerOutcome(w.status, l.(accounts := l.accounts[i := w.account]))
  }

  // ---------------------------------------------------------------------------
  // Each operation keeps the invariant
  // ---------------------------------------------------------------------------

  lemma InitialLedgerValid()
    ensures Valid(InitialLedger())
  {
  }

  /** Appending a well-formed account numbered by the counter, and moving the counter on, keeps the invariant. */
  lemma AppendKeepsValid(l: Ledger, a: Account)
    requires Valid(l) && WellFormed(a) && a.number == l.nextAccountNumber
    ensures Valid(Ledger(l.accounts + [a], l.nextAccountNumber + 1))
    ensures Numbers(l.accounts + [a]) <= Numbers(l.accounts) + {l.nextAccountNumber}
  {
    var s := l.accounts + [a];
    forall i, j | 0 <= i < j < |s|
      ensures s[i].number != s[j].number
    {
      if j == |l.accounts| {
        assert s[i] == l.accounts[i];
      }
    }
  }

  lemma CreateKeepsValid(l: Ledger, name: string, initialDeposit: int)
    requires Valid(l)
    ensures Valid(CreateAccount(l, name, initialDeposit).ledger)
    ensures Numbers(CreateAccount(l, name, initialDeposit).ledger.accounts) <= Numbers(l.accounts) + {l.nextAccountNumber}
  {
    if initialDeposit >= 0 {
      var a := NewAccount(l.nextAccountNumber, name, initialDeposit);
      NewAccountWellFormed(l.nextAccountNumber, name, initialDeposit);
      assert CreateAccount(l, name, initialDeposit).ledger == Ledger(l.accounts + [a], l.nextAccountNumber + 1);
      AppendKeepsValid(l, a);
    }
  }

  /** Erasing position `i` shifts every later account down by one. */
  lemma EraseShifts(s: seq<Account>, i: int)
    requires 0 <= i < |s|
    ensures var s' := s[..i] + s[i + 1..];
      |s'| == |s| - 1 && forall k :: 0 <= k < |s'| ==> s'[k] == s[if k < i then k else k + 1]
  {
  }

  /** Erasing position `i` from a sequence with unique numbers removes exactly its number. */
  lemma {:induction false} EraseNumbers(s: seq<Account>, i: int)
    requires 0 <= i < |s| && UniqueNumbers(s)
    ensures UniqueNumbers(s[..i] + s[i + 1..])
    ensures Numbers(s[..i] + s[i + 1..]) == Numbers(s) - {s[i].number}
  {
    var s' := s[..i] + s[i + 1..];
    EraseShifts(s, i);
    forall m | m in Numbers(s')
      ensures m in Numbers(s) - {s[i].number}
    {
      var a :| a in s' && a.number == m;
      var k :| 0 <= k < |s'| && s'[k] == a;
      var k0 := if k < i then k else k + 1;
      assert s[k0] == a && k0 != i;
    }
    forall m | m in Numbers(s) - {s[i].number}
      ensures m in Numbers(s')
    {
      var a :| a in s && a.number == m;
      var k :| 0 <= k < |s| && s[k] == a;
      assert k != i;
      var k' := if k < i then k else k - 1;
      assert s'[k'] == a;
    }
  }

  /** Erasing any one account keeps the invariant. */
  lemma {:induction false} EraseKeepsValid(l: Ledger, i: int)
    requires Valid(l) && 0 <= i < |l.accounts|
    ensures Valid(l.(accounts := l.accounts[..i] + l.accounts[i + 1..]))
  {
    var s := l.accounts;
    var s' := s[..i] + s[i + 1..];
    EraseShifts(s, i);
    EraseNumbers(s, i);
    forall k | 0 <= k < |s'|
      ensures WellFormed(s'[k])
      ensures FirstAccountNumber <= s'[k].number < l.nextAccountNumber
    {
      var k0 := if k < i then k else k + 1;
      assert s'[k] == s[k0];
    }
  }

  /** Deleting removes exactly the number asked for, and the invariant survives. */
  lemma {:induction false} DeleteKeepsValid(l: Ledger, n: int)
    requires Valid(l)
    ensures Valid(DeleteAccount(l, n).ledger)
    ensures Numbers(DeleteAccount(l, n).ledger.accounts) == Numbers(l.accounts) - {n}
  {
    var i := FindAccountIndex(l, n);
    if i != -1 {
      EraseKeepsValid(l, i);
      EraseNumbers(l.accounts, i);
    }
  }

  /** Replacing one account by another with the same number keeps the numbering invariant. */
  lemma {:induction false} ReplaceKeepsValid(l: Ledger, i: int, a: Account)
    requires Valid(l) && 0 <= i < |l.accounts|
    requires a.number == l.accounts[i].number && WellFormed(a)
    ensures Valid(l.(accounts := l.accounts[i := a]))
    ensures Numbers(l.accounts[i := a]) == Numbers(l.accounts)
  {
    var s := l.accounts;
    var s' := s[i := a];
    forall m | m in Numbers(s')
      ensures m in Numbers(s)
    {
      var b :| b in s' && b.number == m;
      var k :| 0 <= k < |s'| && s'[k] == b;
      assert s[k].number == m;
    }
    forall m | m in Numbers(s)
      ensures m in Numbers(s')
    {
      var b :| b in s && b.number == m;
      var k :| 0 <= k < |s| && s[k] == b;
      assert s'[k].number == m;
    }
  }

  lemma DepositToKeepsValid(l: Ledger, n: int, amount: int)
    requires Valid(l)
    ensures Valid(DepositTo(l, n, amount).ledger)
    ensures Numbers(DepositTo(l, n, amount).ledger.accounts) == Numbers(l.accounts)
  {
    var i := FindAccountIndex(l, n);
    if i != -1 {
      DepositPreservesWellFormed(l.accounts[i], amount);
      ReplaceKeepsValid(l, i, Deposit(l.accounts[i], amount).account);
    }
  }

  lemma WithdrawFromKeepsValid(l: Ledger, n: int, amount: int)
    requires Valid(l)
    ensures Valid(WithdrawFrom(l, n, amount).ledger)
    ensures Numbers(WithdrawFrom(l, n, amount).ledger.accounts) == Numbers(l.accounts)
  {
    var i := FindAccountIndex(l, n);
    if i != -1 {
      WithdrawPreservesWellFormed(l.accounts[i], amount);
      ReplaceKeepsValid(l, i, Withdraw(l.accounts[i], amount).account);
    }
  }

  // ---------------------------------------------------------------------------
  // Runs of operations: numbers are unique and never reused
  // ---------------------------------------------------------------------------

  datatype LedgerOp =
    | CreateAccountOp(name: string, initialDeposit: int)
    | DeleteAccountOp(number: int)
    | DepositToOp(number: int, amount: int)
    | WithdrawFromOp(number: int, amount: int)

  function Perform(l: Ledger, op: LedgerOp): LedgerOutcome {
    match op
    case CreateAccountOp(name, deposit) => CreateAccount(l, name, deposit)
    case DeleteAccountOp(n) => DeleteAccount(l, n)
    case DepositToOp(n, amount) => DepositTo(l, n, amount)
    case WithdrawFromOp(n, amount) => WithdrawFrom(l, n, amount)
  }

  function RunOps(l: Ledger, ops: seq<LedgerOp>): Ledger
    decreases |ops|
  {
    if |ops| == 0 then l else Perform(RunOps(l, ops[..|ops| - 1]), ops[|ops| - 1]).ledger
  }

  /** The account numbers handed out by the successful creations of a run, in order. */
  function Issued(l: Ledger, ops: seq<LedgerOp>): seq<int>
    decreases |ops|
  {
    if |ops| == 0 then []
    else
      var before := RunOps(l, ops[..|ops| - 1]);
      var op := ops[|ops| - 1];
      Issued(l, ops[..|ops| - 1])
        + if Creates(op) then [before.nextAccountNumber] else []
  }

  /** Whether `op` is a creation that succeeds. */
  predicate Creates(op: LedgerOp) {
    op.CreateAccountOp? && op.initialDeposit >= 0
  }

  /** One operation keeps the invariant, moves the counter only when it creates, and brings in
      no number other than the one it creates. */
  lemma PerformKeepsValid(l: Ledger, op: LedgerOp)
    requires Valid(l)
    ensures var l' := Perform(l, op).ledger;
      && Valid(l')
      && l'.nextAccountNumber == l.nextAccountNumber + (if Creates(op) then 1 else 0)
      && Numbers(l'.accounts) <= Numbers(l.accounts) + (if Creates(op) then {l.nextAccountNumber} else {})
  {
    match op
    case CreateAccountOp(name, deposit) => CreateKeepsValid(l, name, deposit);
    case DeleteAccountOp(n) => DeleteKeepsValid(l, n);
    case DepositToOp(n, amount) => DepositToKeepsValid(l, n, amount);
    case WithdrawFromOp(n, amount) => WithdrawFromKeepsValid(l, n, amount);
  }

  /** The bookkeeping of one step of a run, stated over plain numbers: appending the counter
      `mid` (or nothing) to increasing numbers from [lo, mid) keeps them increasing and within
      [lo, hi), and every number present afterwards is old or handed out. */
  lemma ExtendIssued(pre: seq<int>, extra: seq<int>, lo: int, mid: int, hi: int,
                     oldNums: set<int>, midNums: set<int>, newNums: set<int>)
    requires forall k :: 0 <= k < |pre| ==> lo <= pre[k] < mid
    requires forall j, k :: 0 <= j < k < |pre| ==> pre[j] < pre[k]
    requires forall m :: m in midNums ==> m in oldNums || m in pre
    requires lo <= mid && (extra == [] || extra == [mid])
    requires hi == mid + |extra|
    requires forall m :: m in newNums ==> m in midNums || m in extra
    ensures var iss := pre + extra;
      && (forall k :: 0 <= k < |iss| ==> lo <= iss[k] < hi)
      && (forall j, k :: 0 <= j < k < |iss| ==> iss[j] < iss[k])
      && (forall m :: m in newNums ==> m in oldNums || m in iss)
  {
    var iss := pre + extra;
    assert forall k :: 0 <= k < |pre| ==> iss[k] == pre[k];
    assert forall m :: m in pre ==> m in iss;
    assert forall m :: m in extra ==> m in iss;
  }

  /** Under any run of creations, deletions, deposits and withdrawals from a valid ledger:
      the ledger stays valid (numbers distinct, each in [1001, counter)), the counter never
      goes down, the numbers handed out strictly increase and all lie between the old and the
      new counter, and every account present was there before or was created during the run. */
  lemma {:induction false} RunKeepsValid(l: Ledger, ops: seq<LedgerOp>)
    requires Valid(l)
    ensures var l' := RunOps(l, ops);
      var iss := Issued(l, ops);
      && Valid(l')
      && l.nextAccountNumber <= l'.nextAccountNumber
      && (forall k :: 0 <= k < |iss| ==> l.nextAccountNumber <= iss[k] < l'.nextAccountNumber)
      && (forall j, k :: 0 <= j < k < |iss| ==> iss[j] < iss[k])
      && (forall m :: m in Numbers(l'.accounts) ==> m in Numbers(l.accounts) || m in iss)
  {
    if |ops| > 0 {
      var p := ops[..|ops| - 1];
      var op := ops[|ops| - 1];
      RunKeepsValid(l, p);
      var before := RunOps(l, p);
      var after := Perform(before, op).ledger;
      assert RunOps(l, ops) == after;
      PerformKeepsValid(before, op);
      var extra := if Creates(op) then [before.nextAccountNumber] else [];
      assert Issued(l, ops) == Issued(l, p) + extra;
      ExtendIssued(Issued(l, p), extra, l.nextAccountNumber, before.nextAccountNumber,
        after.nextAccountNumber, Numbers(l.accounts), Numbers(before.accounts), Numbers(after.accounts));
    }
  }

  /** A number that is in use is never handed out again, whatever follows — in particular
      not after its account is deleted. */
  lemma NumbersNeverReused(l: Ledger, ops: seq<LedgerOp>, n: int)
    requires Valid(l) && n in Numbers(l.accounts)
    ensures n !in Issued(l, ops)
  {
    RunKeepsValid(l, ops);
  }

  /** From the freshly constructed ledger, the k-th successful creation gets number 1001 + k. */
  lemma {:induction false} IssuedFromInitial(ops: seq<LedgerOp>)
    ensures var iss := Issued(InitialLedger(), ops);
      && RunOps(InitialLedger(), ops).nextAccountNumber == FirstAccountNumber + |iss|
      && forall k :: 0 <= k < |iss| ==> iss[k] == FirstAccountNumber + k
  {
    if |ops| > 0 {
      IssuedFromInitial(ops[..|ops| - 1]);
    }
  }

  /** A worked run: Alice opens with 100.00 and gets number 1001; 50.00 in; 200.00 out is refused
      for insufficient funds; 150.00 out empties the account. */
  lemma AliceScenario()
    ensures var c := CreateAccount(InitialLedger(), "Alice", 10000);
      var d := DepositTo(c.ledger, 1001, 5000);
      var w1 := WithdrawFrom(d.ledger, 1001, 20000);
      var w2 := WithdrawFrom(w1.ledger, 1001, 15000);
      && c.ledger.accounts[0].number == 1001
      && c.ledger.accounts[0].history == [Transaction(InitialDepositKind, 10000, 10000)]
      && d.status == Ok && d.ledger.accounts[0].balance == 15000
      && w1.status == InsufficientFunds && w1.ledger == d.ledger
      && w2.status == Ok && w2.ledger.accounts[0].balance == 0
      && |w2.ledger.accounts[0].history| == 3
  {
    var c := CreateAccount(InitialLedger(), "Alice", 10000);
    assert FindAccountIndex(c.ledger, 1001) == 0;
    var d := DepositTo(c.ledger, 1001, 5000);
    assert FindAccountIndex(d.ledger, 1001) == 0;
  }
}

=== FILE: lines.dfy ===
/** Text as a sequence of lines: each line written with `endl`, read back with `getline`. */
module Lines {

  predicate NoNewline(s: string) {
    forall i :: 0 <= i < |s| ==> s[i] != '\n'
  }

  /** Every line followed by a newline, as a stream of `<< line << endl` produces. */
  function Join(lines: seq<string>): (t: string)
    ensures |lines| == 0 <==> |t| == 0
    ensures |lines| > 0 ==> t[|t| - 1] == '\n'
  {
    if |lines| == 0 then [] else lines[0] + "\n" + Join(lines[1..])
  }

  /** The position of the first newline in `t`, or `|t|` when there is none. */
  function NewlineIndex(t: string): (i: nat)
    ensures i <= |t|
    ensures NoNewline(t[..i])
    ensures i < |t| ==> t[i] == '\n'
  {
    if |t| == 0 || t[0] == '\n' then 0
    else
      var j := NewlineIndex(t[1..]);
      assert t[..j + 1] == [t[0]] + t[1..][..j];
      j + 1
  }

  /** The lines `getline` returns one after another until the text is exhausted; a last
      line without a terminating newline is still returned. */
  function Split(t: string): (lines: seq<string>)
    ensures forall k :: 0 <= k < |lines| ==> NoNewline(lines[k])
    decreases |t|
  {
    if |t| == 0 then []
    else
      var i := NewlineIndex(t);
      if i == |t| then [t] else [t[..i]] + Split(t[i + 1..])
  }

  /** The first newline after a newline-free line is the one that ends it. */
  lemma {:induction false} NewlineAfterLine(first: string, rest: string)
    requires NoNewline(first)
    ensures NewlineIndex(first + "\n" + rest) == |first|
  {
    if |first| > 0 {
      var t := first + "\n" + rest;
      assert t[1..] == first[1..] + "\n" + rest;
      NewlineAfterLine(first[1..], rest);
    }
  }

  /** Lines without embedded newlines survive being written and read back. */
  lemma {:induction false} SplitJoin(lines: seq<string>)
    requires forall k :: 0 <= k < |lines| ==> NoNewline(lines[k])
    ensures Split(Join(lines)) == lines
  {
    if |lines| > 0 {
      var first := lines[0];
      var rest := Join(lines[1..]);
      var t := Join(lines);
      assert t == first + "\n" + rest;
      NewlineAfterLine(first, rest);
      assert t[..|first|] == first;
      assert t[|first| + 1..] == rest;
      SplitJoin(lines[1..]);
      assert lines == [first] + lines[1..];
    }
  }
}

=== FILE: password_hash.dfy ===
/** The password hash of User::hashPassword: djb2 over the password's bytes in a
    64-bit unsigned word, rendered as 16 zero-padded lower-case hex digits. */
module PasswordHash {

  /** A byte of the password as stored in a C++ std::string. */
  type Byte = x: int | 0 <= x < 256

  /** 2^64: `unsigned long` is a 64-bit word. */
  const Word: nat := 0x1_0000_0000_0000_0000

  /** The djb2 seed. */
  const Seed: nat := 5381

  /** The width of the rendered hash, from `setw(16)` with fill '0'. */
  const HexWidth: nat := 16

  /** The value `char` contributes to the sum: `char` is signed, so bytes 128..255 count as -128..-1. */
  function CharValue(b: Byte): (v: int)
    ensures -128 <= v < 128
    ensures v % 256 == b
  {
    if b < 128 then b else b - 256
  }

  /** The hash word after folding in every byte: `h := h * 33 + c`, wrapping modulo 2^64
      (a negative `c` is converted to unsigned, which is the same residue). */
  function Djb2(pw: seq<Byte>): (h: nat)
    ensures h < Word
  {
    if |pw| == 0 then Seed
    else (Djb2(pw[..|pw| - 1]) * 33 + CharValue(pw[|pw| - 1])) % Word
  }

  /** Reference definition: the same polynomial over unbounded integers, with no wrap-around. */
  function Poly(pw: seq<Byte>): int {
    if |pw| == 0 then Seed else Poly(pw[..|pw| - 1]) * 33 + CharValue(pw[|pw| - 1])
  }

  lemma ModStep(x: int, c: int)
    ensures ((x % Word) * 33 + c) % Word == (x * 33 + c) % Word
  {
    var q := x / Word;
    var r := x % Word;
    assert x == q * Word + r;
    assert x * 33 + c == (q * 33) * Word + (r * 33 + c);
  }

  /** Wrapping after every step gives the unbounded polynomial modulo 2^64. */
  lemma {:induction false} Djb2IsPolyModWord(pw: seq<Byte>)
    ensures Djb2(pw) == Poly(pw) % Word
  {
    if |pw| > 0 {
      var p := pw[..|pw| - 1];
      Djb2IsPolyModWord(p);
      ModStep(Poly(p), CharValue(pw[|pw| - 1]));
    }
  }

  // ---------------------------------------------------------------------------
  // Hex rendering
  // ---------------------------------------------------------------------------

  predicate IsLowerHex(c: char) {
    '0' <= c <= '9' || 'a' <= c <= 'f'
  }

  function HexChar(d: nat): (c: char)
    requires d < 16
    ensures IsLowerHex(c)
  {
    "0123456789abcdef"[d]
  }

  /** The value of one lower-case hex digit. */
  function HexCharValue(c: char): (d: nat)
    requires IsLowerHex(c)
    ensures d < 16
  {
    if c <= '9' then c as int - '0' as int else c as int - 'a' as int + 10
  }

  function Pow16(w: nat): (p: nat)
    ensures p > 0
  {
    if w == 0 then 1 else 16 * Pow16(w - 1)
  }

  /** The `w` low hex digits of `h`, most significant first, zero-padded. */
  function ToHex(h: nat, w: nat): (s: string)
    ensures |s| == w
    ensures forall i :: 0 <= i < |s| ==> IsLowerHex(s[i])
  {
    if w == 0 then [] else ToHex(h / 16, w - 1) + [HexChar(h % 16)]
  }

  /** Reads a string of lower-case hex digits back as a number. */
  function HexValue(s: string): nat
    requires forall i :: 0 <= i < |s| ==> IsLowerHex(s[i])
  {
    if |s| == 0 then 0 else HexValue(s[..|s| - 1]) * 16 + HexCharValue(s[|s| - 1])
  }

  lemma HexCharRoundTrip(d: nat)
    requires d < 16
    ensures HexCharValue(HexChar(d)) == d
  {
  }

  /** Rendering a number below 16^w in w digits loses nothing. */
  lemma {:induction false} HexRoundTrip(h: nat, w: nat)
    requires h < Pow16(w)
    ensures HexValue(ToHex(h, w)) == h
  {
    if w > 0 {
      var s := ToHex(h, w);
      assert s[..|s| - 1] == ToHex(h / 16, w - 1);
      HexRoundTrip(h / 16, w - 1);
      HexCharRoundTrip(h % 16);
    }
  }

  lemma WordIsPow16()
    ensures Pow16(HexWidth) == Word
  {
    assert Pow16(4) == 0x1_0000;
    assert Pow16(8) == 0x1_0000_0000;
    assert Pow16(12) == 0x1_0000_0000_0000;
  }

  /** User::hashPassword. */
  function HashPassword(pw: seq<Byte>): (s: string)
    ensures |s| == HexWidth
    ensures forall i :: 0 <= i < |s| ==> IsLowerHex(s[i])
  {
    ToHex(Djb2(pw), HexWidth)
  }

  /** The rendered hash reads back as the hash word, which is the djb2 polynomial modulo 2^64. */
  lemma HashPasswordDecodes(pw: seq<Byte>)
    ensures HexValue(HashPassword(pw)) == Djb2(pw) == Poly(pw) % Word
  {
    WordIsPow16();
    HexRoundTrip(Djb2(pw), HexWidth);
    Djb2IsPolyModWord(pw);
  }

  /** Two passwords have the same hash string exactly when their hash words agree:
      comparing strings, as the source does, is comparing words. */
  lemma HashEqualIffWordsEqual(p: seq<Byte>, q: seq<Byte>)
    ensures HashPassword(p) == HashPassword(q) <==> Djb2(p) == Djb2(q)
  {
    HashPasswordDecodes(p);
    HashPasswordDecodes(q);
  }

  lemma {:induction false} ZeroHex(w: nat)
    ensures ToHex(0, w) == seq(w, _ => '0')
  {
    if w > 0 {
      ZeroHex(w - 1);
    }
  }

  /** The empty password hashes to the seed, 5381 = 0x1505. */
  lemma EmptyPasswordHash()
    ensures HashPassword([]) == "0000000000001505"
  {
    ZeroHex(12);
    assert ToHex(5381, 16) == ToHex(336, 15) + "5";
    assert ToHex(336, 15) == ToHex(21, 14) + "0";
    assert ToHex(21, 14) == ToHex(1, 13) + "5";
    assert ToHex(1, 13) == ToHex(0, 12) + "1";
  }
}

=== FILE: snapshot.dfy ===
/** The ledger snapshot file of BankingSystem::saveToFile / loadFromFile, as text: the
    counter line, the count line, then three lines per account (number, holder, balance). */
module Snapshot {
  import opened Wrappers
  import opened Decimal
  import opened Lines
  import opened Accounts
  import opened BankingSystem

  /** The three lines written for one account: number, holder name, balance. */
  function RecordLines(a: Account): (lines: seq<string>)
    ensures |lines| == 3 && lines[1] == a.holder
  {
    [IntToString(a.number), a.holder, CentsToString(a.balance)]
  }

  /** The record lines of every account, in order. */
  function AccountLines(accounts: seq<Account>): (lines: seq<string>)
    ensures |lines| == 3 * |accounts|
  {
    if |accounts| == 0 then [] else RecordLines(accounts[0]) + AccountLines(accounts[1..])
  }

  /** Line j of the k-th account's record is line 3k + j of all the record lines. */
  lemma {:induction false} AccountLinesAt(accounts: seq<Account>, k: nat, j: nat)
    requires k < |accounts| && j < 3
    ensures AccountLines(accounts)[3 * k + j] == RecordLines(accounts[k])[j]
  {
    var head, tail := RecordLines(accounts[0]), AccountLines(accounts[1..]);
    assert AccountLines(accounts) == head + tail;
    if k > 0 {
      AccountLinesAt(accounts[1..], k - 1, j);
      assert (head + tail)[3 * k + j] == tail[3 * (k - 1) + j];
    }
  }

  /** The lines of a snapshot: the counter, the number of accounts, then each account's record.
      The first two read back as the counter and the count. */
  function SaveLines(l: Ledger): (lines: seq<string>)
    ensures |lines| == 2 + 3 * |l.accounts|
    ensures ParseInt(lines[0]) == Some(l.nextAccountNumber) && ParseInt(lines[1]) == Some(|l.accounts|)
    ensures lines[2..] == AccountLines(l.accounts)
  {
    IntToStringRoundTrip(l.nextAccountNumber);
    IntToStringRoundTrip(|l.accounts|);
    [IntToString(l.nextAccountNumber), NatToString(|l.accounts|)] + AccountLines(l.accounts)
  }

  predicate HoldersFitOnOneLine(accounts: seq<Account>) {
    forall k :: 0 <= k < |accounts| ==> NoNewline(accounts[k].holder)
  }

  lemma {:induction false} AccountLinesOneLineEach(accounts: seq<Account>)
    requires HoldersFitOnOneLine(accounts)
    ensures forall k :: 0 <= k < |AccountLines(accounts)| ==> NoNewline(AccountLines(accounts)[k])
  {
    if |accounts| > 0 {
      AccountLinesOneLineEach(accounts[1..]);
      assert AccountLines(accounts) == RecordLines(accounts[0]) + AccountLines(accounts[1..]);
    }
  }

  /** When no holder name contains a newline, the written text splits back into the snapshot lines. */
  lemma SaveLinesSplitBack(l: Ledger)
    ensures HoldersFitOnOneLine(l.accounts) ==> Split(Join(SaveLines(l))) == SaveLines(l)
  {
    if HoldersFitOnOneLine(l.accounts) {
      var lines := SaveLines(l);
      AccountLinesOneLineEach(l.accounts);
      assert forall k :: 2 <= k < |lines| ==> lines[k] == AccountLines(l.accounts)[k - 2];
      assert forall k :: 0 <= k < |lines| ==> NoNewline(lines[k]);
      SplitJoin(lines);
    }
  }

  /** saveToFile: the text written to the snapshot file. Every line ends with a newline, and
      when no holder name contains one, `getline` recovers exactly the snapshot lines. */
  function Save(l: Ledger): (t: string)
    ensures |t| > 0 && t[|t| - 1] == '\n'
    ensures HoldersFitOnOneLine(l.accounts) ==> Split(t) == SaveLines(l)
  {
    SaveLinesSplitBack(l);
    Join(SaveLines(l))
  }

  /** Reads one record; the account is freshly constructed, so only the number, holder and
      balance come back, not the history. */
  function ParseRecord(number: string, holder: string, balance: string): (r: Option<Account>)
    ensures r.Some? <==> ParseInt(number).Some? && ParseCents(balance).Some?
    ensures r.Some? ==>
      && Some(r.value.number) == ParseInt(number) && r.value.holder == holder
      && Some(r.value.balance) == ParseCents(balance) && |r.value.history| <= 1
  {
    match (ParseInt(number), ParseCents(balance))
    case (Some(n), Some(b)) => Some(NewAccount(n, holder, b))
    case _ => None
  }

  /** Reads `count` records of three lines each with `parse`, stopping at the first that fails. */
  function ReadRecords<T>(lines: seq<string>, count: nat, parse: (string, string, string) -> Option<T>): (r: Option<seq<T>>)
    ensures r.Some? ==> |r.value| == count && 3 * count <= |lines|
    decreases count
  {
    if count == 0 then Some([])
    else if |lines| < 3 then None
    else
      match (parse(lines[0], lines[1], lines[2]), ReadRecords(lines[3..], count - 1, parse))
      case (Some(a), Some(rest)) => Some([a] + rest)
      case _ => None
  }

  /** After the first record, a successful read goes on with the remaining lines. */
  lemma ReadRecordsTail<T>(lines: seq<string>, count: nat, parse: (string, string, string) -> Option<T>)
    requires ReadRecords(lines, count, parse).Some? && count > 0
    ensures |lines| >= 3
    ensures parse(lines[0], lines[1], lines[2]) == Some(ReadRecords(lines, count, parse).value[0])
    ensures ReadRecords(lines[3..], count - 1, parse) == Some(ReadRecords(lines, count, parse).value[1..])
  {
  }

  /** The k-th record read is the one `parse` makes of lines 3k, 3k+1 and 3k+2. */
  lemma {:induction false} ReadRecordsAt<T>(lines: seq<string>, count: nat, parse: (string, string, string) -> Option<T>, k: nat)
    requires ReadRecords(lines, count, parse).Some? && k < count
    ensures 3 * k + 3 <= |lines|
    ensures parse(lines[3 * k], lines[3 * k + 1], lines[3 * k + 2]) == Some(ReadRecords(lines, count, parse).value[k])
  {
    ReadRecordsTail(lines, count, parse);
    if k > 0 {
      var rest := lines[3..];
      ReadRecordsAt(rest, count - 1, parse, k - 1);
      assert rest[3 * (k - 1)] == lines[3 * k] && rest[3 * (k - 1) + 1] == lines[3 * k + 1]
        && rest[3 * (k - 1) + 2] == lines[3 * k + 2];
    }
  }

  /** Reads `count` account records. */
  function LoadAccounts(lines: seq<string>, count: nat): (r: Option<seq<Account>>)
    ensures r.Some? ==> |r.value| == count && 3 * count <= |lines|
  {
    ReadRecords(lines, count, ParseRecord)
  }

  /** The k-th account read is the one parsed from lines 3k, 3k+1 and 3k+2. */
  lemma LoadAccountsAt(lines: seq<string>, count: nat, k: nat)
    requires LoadAccounts(lines, count).Some? && k < count
    ensures 3 * k + 3 <= |lines|
    ensures ParseRecord(lines[3 * k], lines[3 * k + 1], lines[3 * k + 2]) == Some(LoadAccounts(lines, count).value[k])
  {
    ReadRecordsAt(lines, count, ParseRecord, k);
  }

  /** The number of records a count line asks for: a negative count asks for none. */
  function RecordCount(count: int): (n: nat)
    ensures count >= 0 ==> n == count
    ensures count < 0 ==> n == 0
  {
    if count < 0 then 0 else count
  }

  /** Reads the counter and the count, then that many records. */
  function LoadLines(lines: seq<string>): (r: Option<Ledger>)
    ensures r.Some? ==>
      && |lines| >= 2
      && ParseInt(lines[0]) == Some(r.value.nextAccountNumber)
      && ParseInt(lines[1]).Some?
      && |r.value.accounts| == RecordCount(ParseInt(lines[1]).value)
      && LoadAccounts(lines[2..], |r.value.accounts|) == Some(r.value.accounts)
  {
    if |lines| < 2 then None
    else
      match (ParseInt(lines[0]), ParseInt(lines[1]))
      case (Some(next), Some(count)) =>
        (match LoadAccounts(lines[2..], RecordCount(count))
         case Some(accounts) => Some(Ledger(accounts, next))
         case None => None)
      case _ => None
  }

  /** loadFromFile on the text of an existing snapshot file: the counter comes from the first
      line, and the number of accounts is what the second line asks for. */
  function Load(text: string): (r: Option<Ledger>)
    ensures r.Some? ==>
      && |Split(text)| >= 2 + 3 * |r.value.accounts|
      && ParseInt(Split(text)[0]) == Some(r.value.nextAccountNumber)
      && ParseInt(Split(text)[1]).Some?
      && |r.value.accounts| == RecordCount(ParseInt(Split(text)[1]).value)
  {
    LoadLines(Split(text))
  }

  /** The BankingSystem constructor: no accounts and the counter at 1001, after which
      loadFromFile replaces both when the snapshot file exists. `file` is that file's text,
      or None when there is no file. */
  function Construct(file: Option<string>): (r: Option<Ledger>)
    ensures file.None? ==> r == Some(InitialLedger())
    ensures file.Some? && r.Some? ==> |Split(file.value)| >= 2 && ParseInt(Split(file.value)[0]) == Some(r.value.nextAccountNumber)
  {
    match file
    case None => Some(InitialLedger())
    case Some(text) => Load(text)
  }

  /** What reloading makes of the accounts: the constructor applied to each one's number, holder and balance. */
  function Reloaded(accounts: seq<Account>): (r: seq<Account>)
    ensures |r| == |accounts|
  {
    if |accounts| == 0 then []
    else [NewAccount(accounts[0].number, accounts[0].holder, accounts[0].balance)] + Reloaded(accounts[1..])
  }

  /** Reloading works position by position. */
  lemma {:induction false} ReloadedAt(accounts: seq<Account>, k: int)
    requires 0 <= k < |accounts|
    ensures Reloaded(accounts)[k] == NewAccount(accounts[k].number, accounts[k].holder, accounts[k].balance)
  {
    if k > 0 {
      ReloadedAt(accounts[1..], k - 1);
    }
  }

  lemma RecordRoundTrip(a: Account)
    ensures var lines := RecordLines(a);
      ParseRecord(lines[0], lines[1], lines[2]) == Some(NewAccount(a.number, a.holder, a.balance))
  {
    IntToStringRoundTrip(a.number);
    CentsToStringRoundTrip(a.balance);
  }

  /** One record read in front of the records that follow it. */
  lemma LoadAccountsStep(lines: seq<string>, count: nat, a: Account, others: seq<Account>)
    requires count > 0 && |lines| >= 3
    requires ParseRecord(lines[0], lines[1], lines[2]) == Some(a)
    requires LoadAccounts(lines[3..], count - 1) == Some(others)
    ensures LoadAccounts(lines, count) == Some([a] + others)
  {
  }

  /** A three-element prefix comes back off a concatenation. */
  lemma SplitAfterThree<T>(r: seq<T>, u: seq<T>, v: seq<T>)
    requires |r| == 3
    ensures ((r + u) + v)[..3] == r && ((r + u) + v)[3..] == u + v
  {
    assert (r + u) + v == r + (u + v);
  }

  /** The record lines of `accounts` split into the first record and the rest. */
  lemma AccountLinesCons(accounts: seq<Account>, rest: seq<string>)
    requires |accounts| > 0
    ensures var lines := AccountLines(accounts) + rest;
      && |lines| >= 3 && lines[..3] == RecordLines(accounts[0])
      && lines[3..] == AccountLines(accounts[1..]) + rest
  {
    SplitAfterThree(RecordLines(accounts[0]), AccountLines(accounts[1..]), rest);
  }

  lemma {:induction false} AccountLinesRoundTrip(accounts: seq<Account>, rest: seq<string>)
    ensures LoadAccounts(AccountLines(accounts) + rest, |accounts|) == Some(Reloaded(accounts))
  {
    if |accounts| > 0 {
      var a := accounts[0];
      var lines := AccountLines(accounts) + rest;
      AccountLinesCons(accounts, rest);
      var record := lines[..3];
      assert lines[0] == record[0] && lines[1] == record[1] && lines[2] == record[2];
      RecordRoundTrip(a);
      AccountLinesRoundTrip(accounts[1..], rest);
      LoadAccountsStep(lines, |accounts|, NewAccount(a.number, a.holder, a.balance), Reloaded(accounts[1..]));
    }
  }

  /** Loading a saved snapshot gives back the counter and every account's number, holder and
      balance in order; each account comes back freshly constructed from those three values. */
  lemma SaveLoadRoundTrip(l: Ledger)
    requires HoldersFitOnOneLine(l.accounts)
    ensures Load(Save(l)) == Some(Ledger(Reloaded(l.accounts), l.nextAccountNumber))
  {
    var lines := SaveLines(l);
    assert lines[2..] == AccountLines(l.accounts) + [];
    AccountLinesRoundTrip(l.accounts, []);
  }

  /** Reloading keeps number, holder and balance and drops the history: an account comes
      back with a single initial-deposit entry when its balance is positive, else with none. */
  lemma ReloadDropsHistory(accounts: seq<Account>, k: int)
    requires 0 <= k < |accounts|
    ensures var a, r := accounts[k], Reloaded(accounts)[k];
      && r.number == a.number && r.holder == a.holder && r.balance == a.balance
      && r.history == if a.balance > 0 then [Transaction(InitialDepositKind, a.balance, a.balance)] else []
  {
    ReloadedAt(accounts, k);
  }

  /** A valid ledger reloads as a valid ledger: numbering is untouched and every fresh account is well formed. */
  lemma ReloadKeepsValid(l: Ledger)
    requires Valid(l)
    ensures Valid(Ledger(Reloaded(l.accounts), l.nextAccountNumber))
  {
    var r := Reloaded(l.accounts);
    forall k | 0 <= k < |r|
      ensures WellFormed(r[k])
      ensures r[k].number == l.accounts[k].number
    {
      ReloadedAt(l.accounts, k);
      NewAccountWellFormed(l.accounts[k].number, l.accounts[k].holder, l.accounts[k].balance);
    }
  }

  /** Restarting the system: with no snapshot file the ledger starts empty at 1001; with the
      file a valid ledger saved, it comes back valid with its counter and every account's number,
      holder and balance, so numbers handed out before the restart are not handed out again. */
  lemma ConstructKeepsValid(l: Ledger)
    requires Valid(l) && HoldersFitOnOneLine(l.accounts)
    ensures Construct(None) == Some(InitialLedger()) && Valid(InitialLedger())
    ensures Construct(Some(Save(l))) == Some(Ledger(Reloaded(l.accounts), l.nextAccountNumber))
    ensures Valid(Construct(Some(Save(l))).value)
  {
    InitialLedgerValid();
    SaveLoadRoundTrip(l);
    ReloadKeepsValid(l);
  }
}

=== FILE: user.dfy ===
/** One credential entry: identity, password hash, role and the failed-attempt
    lockout state machine (User.h / User.cpp). */
module Users {
  import opened Wrappers
  import opened PasswordHash

  /** The three roles, in the order of the enum, whose codes are 0, 1 and 2. */
  datatype Role = Admin | User | Guest

  datatype Credential = Credential(
    username: string,
    passwordHash: string,
    role: Role,
    locked: bool,
    failedAttempts: int)

  /** The number of consecutive failures that locks a credential. */
  const LockThreshold: nat := 3

  // ---------------------------------------------------------------------------
  // Roles
  // ---------------------------------------------------------------------------

  /** User::getRoleName. The source's "Unknown" default cannot be reached with a closed enumeration. */
  function RoleName(r: Role): (s: string)
    ensures s in {"Admin", "User", "Guest"}
  {
    match r
    case Admin => "Admin"
    case User => "User"
    case Guest => "Guest"
  }

  /** The inverse of RoleName, for reading a role back from its display name. */
  function RoleFromName(s: string): (r: Option<Role>)
    ensures r.Some? <==> s in {"Admin", "User", "Guest"}
  {
    if s == "Admin" then Some(Admin)
    else if s == "User" then Some(User)
    else if s == "Guest" then Some(Guest)
    else None
  }

  /** The integer value of each enumerator. */
  function RoleCode(r: Role): (c: nat)
    ensures c < 3
  {
    match r
    case Admin => 0
    case User => 1
    case Guest => 2
  }

  function RoleFromCode(c: int): (r: Option<Role>)
    ensures r.Some? <==> 0 <= c < 3
  {
    if c == 0 then Some(Admin) else if c == 1 then Some(User) else if c == 2 then Some(Guest) else None
  }

  /** Names and codes identify roles: each reads back to the role it came from. */
  lemma RoleNameAndCodeRoundTrip(r: Role)
    ensures RoleFromName(RoleName(r)) == Some(r)
    ensures RoleFromCode(RoleCode(r)) == Some(r)
  {
  }

  /** Distinct roles have distinct names. */
  lemma RoleNameInjective(r: Role, q: Role)
    ensures RoleName(r) == RoleName(q) <==> r == q
  {
    RoleNameAndCodeRoundTrip(r);
    RoleNameAndCodeRoundTrip(q);
  }

  // ---------------------------------------------------------------------------
  // The lockout state machine
  // ---------------------------------------------------------------------------

  /** The constructor: the counter starts at zero; the lock flag is the caller's (false by default). */
  function NewCredential(username: string, passwordHash: string, role: Role, locked: bool): (u: Credential)
    ensures u.username == username && u.passwordHash == passwordHash && u.role == role
    ensures u.locked == locked && u.failedAttempts == 0
  {
    Credential(username, passwordHash, role, locked, 0)
  }

  function SetLocked(u: Credential, locked: bool): (u': Credential)
    ensures u'.locked == locked
    ensures u' == u.(locked := u'.locked)
  {
    u.(locked := locked)
  }

  /** One more failed attempt; reaching the threshold locks, and a lock is never cleared here. */
  function IncrementFailedAttempts(u: Credential): (u': Credential)
    ensures u'.failedAttempts == u.failedAttempts + 1
    ensures u'.locked <==> u.locked || u'.failedAttempts >= LockThreshold
    ensures u' == u.(failedAttempts := u'.failedAttempts, locked := u'.locked)
  {
    var n := u.failedAttempts + 1;
    u.(failedAttempts := n, locked := if n >= LockThreshold then true else u.locked)
  }

  /** Clears the counter; the lock flag is left as it is. */
  function ResetFailedAttempts(u: Credential): (u': Credential)
    ensures u'.failedAttempts == 0
    ensures u' == u.(failedAttempts := 0)
  {
    u.(failedAttempts := 0)
  }

  /** User::authenticate: a locked credential is refused for every password; otherwise the
      hash of the offered password must equal the stored hash. */
  function Authenticate(u: Credential, pw: seq<Byte>): (ok: bool)
    ensures u.locked ==> !ok
    ensures !u.locked ==> (ok <==> u.passwordHash == HashPassword(pw))
  {
    if u.locked then false else u.passwordHash == HashPassword(pw)
  }

  /** The lockout invariant: the counter is not negative and a counter at the threshold implies a lock. */
  predicate LockoutInvariant(u: Credential) {
    u.failedAttempts >= 0 && (u.failedAttempts >= LockThreshold ==> u.locked)
  }

  lemma NewCredentialInvariant(username: string, passwordHash: string, role: Role, locked: bool)
    ensures LockoutInvariant(NewCredential(username, passwordHash, role, locked))
  {
  }

  /** Incrementing and resetting both keep the lockout invariant; locking explicitly does too. */
  lemma TransitionsKeepInvariant(u: Credential)
    requires LockoutInvariant(u)
    ensures LockoutInvariant(IncrementFailedAttempts(u))
    ensures LockoutInvariant(ResetFailedAttempts(u))
    ensures LockoutInvariant(SetLocked(u, true))
  {
  }

  /** Unlocking is paired with a reset: together they restore an unlocked credential with a zero
      counter. Clearing the lock alone can leave the counter at the threshold. */
  lemma UnlockNeedsReset(u: Credential)
    ensures var v := ResetFailedAttempts(SetLocked(u, false));
      LockoutInvariant(v) && !v.locked && v.failedAttempts == 0
    ensures u.failedAttempts >= LockThreshold ==> !LockoutInvariant(SetLocked(u, false))
  {
  }

  /** A credential registered with the hash of `pw` and not locked accepts `pw`. */
  lemma RegisteredPasswordAuthenticates(username: string, pw: seq<Byte>, role: Role)
    ensures Authenticate(NewCredential(username, HashPassword(pw), role, false), pw)
  {
  }

  /** A locked credential rejects every password, including the right one. */
  lemma LockedRejectsEveryPassword(u: Credential, pw: seq<Byte>)
    requires u.locked
    ensures !Authenticate(u, pw)
  {
  }

  /** An unlocked credential accepts another password exactly when its hash word collides with the stored one. */
  lemma AuthenticateComparesHashWords(u: Credential, pw: seq<Byte>, registered: seq<Byte>)
    requires !u.locked && u.passwordHash == HashPassword(registered)
    ensures Authenticate(u, pw) <==> Djb2(pw) == Djb2(registered)
  {
    HashEqualIffWordsEqual(pw, registered);
  }

  // ---------------------------------------------------------------------------
  // Runs of failures and resets
  // ---------------------------------------------------------------------------

  datatype CounterOp = Fail | Reset

  function Step(u: Credential, op: CounterOp): Credential {
    match op
    case Fail => IncrementFailedAttempts(u)
    case Reset => ResetFailedAttempts(u)
  }

  function Run(u: Credential, ops: seq<CounterOp>): Credential
    decreases |ops|
  {
    if |ops| == 0 then u else Step(Run(u, ops[..|ops| - 1]), ops[|ops| - 1])
  }

  /** The number of failures since the last reset (or since the start). */
  function TrailingFails(ops: seq<CounterOp>): nat {
    if |ops| == 0 || ops[|ops| - 1] == Reset then 0 else TrailingFails(ops[..|ops| - 1]) + 1
  }

  /** Three failures follow each other in `ops` from position `i`. */
  predicate ThreeAt(ops: seq<CounterOp>, i: int) {
    0 <= i && i + 2 < |ops| && ops[i] == Fail && ops[i + 1] == Fail && ops[i + 2] == Fail
  }

  /** Somewhere in `ops`, three failures follow each other with no reset between them. */
  predicate HasThreeInARow(ops: seq<CounterOp>) {
    exists i | 0 <= i < |ops| :: ThreeAt(ops, i)
  }

  /** From any state that satisfies it, the lockout invariant survives every run, the only
      identity fields never change, and a lock once set stays set. */
  lemma {:induction false} RunKeepsInvariant(u: Credential, ops: seq<CounterOp>)
    requires LockoutInvariant(u)
    ensures var v := Run(u, ops);
      && LockoutInvariant(v)
      && v.username == u.username && v.passwordHash == u.passwordHash && v.role == u.role
      && (u.locked ==> v.locked)
  {
    if |ops| > 0 {
      RunKeepsInvariant(u, ops[..|ops| - 1]);
      TransitionsKeepInvariant(Run(u, ops[..|ops| - 1]));
    }
  }

  /** At least two trailing failures means the last two operations are failures. */
  lemma TrailingTwo(ops: seq<CounterOp>)
    ensures TrailingFails(ops) >= 2 <==>
      |ops| >= 2 && ops[|ops| - 1] == Fail && ops[|ops| - 2] == Fail
  {
    if |ops| >= 1 && ops[|ops| - 1] == Fail {
      var p := ops[..|ops| - 1];
      assert |p| >= 1 ==> p[|p| - 1] == ops[|ops| - 2];
    }
  }

  /** A window of three failures in `ops + [op]` is one already in `ops` or one that ends at `op`. */
  lemma ThreeInARowSnoc(ops: seq<CounterOp>, op: CounterOp)
    ensures HasThreeInARow(ops + [op]) <==>
      HasThreeInARow(ops) || (op == Fail && TrailingFails(ops) >= 2)
  {
    var s := ops + [op];
    TrailingTwo(ops);
    if HasThreeInARow(s) {
      var i :| 0 <= i < |s| && ThreeAt(s, i);
      if i + 2 < |ops| {
        assert ThreeAt(ops, i);
      }
    }
    if HasThreeInARow(ops) {
      var i :| 0 <= i < |ops| && ThreeAt(ops, i);
      assert ThreeAt(s, i);
    }
    if op == Fail && TrailingFails(ops) >= 2 {
      assert ThreeAt(s, |ops| - 2);
    }
  }

  /** Starting unlocked with a zero counter, the counter is the number of failures since the
      last reset, and the credential is locked exactly when three failures ever came in a row. */
  lemma {:induction false} LockedIffThreeConsecutiveFailures(u: Credential, ops: seq<CounterOp>)
    requires !u.locked && u.failedAttempts == 0
    ensures Run(u, ops).failedAttempts == TrailingFails(ops)
    ensures Run(u, ops).locked <==> HasThreeInARow(ops)
  {
    if |ops| > 0 {
      var p := ops[..|ops| - 1];
      LockedIffThreeConsecutiveFailures(u, p);
      ThreeInARowSnoc(p, ops[|ops| - 1]);
      assert ops == p + [ops[|ops| - 1]];
    }
  }

  /** A worked run: three wrong passwords lock the credential, after which even the right
      password is refused; unlocking with a reset lets the right password in again. */
  lemma LockoutScenario(name: string, secret: seq<Byte>)
    ensures var u := NewCredential(name, HashPassword(secret), User, false);
      var locked := Run(u, [Fail, Fail, Fail]);
      var unlocked := ResetFailedAttempts(SetLocked(locked, false));
      && !Run(u, [Fail, Fail]).locked
      && locked.locked && !Authenticate(locked, secret)
      && unlocked.failedAttempts == 0 && Authenticate(unlocked, secret)
  {
    var u := NewCredential(name, HashPassword(secret), User, false);
    assert [Fail, Fail, Fail][..2] == [Fail, Fail];
    assert [Fail, Fail][..1] == [Fail];
  }
}

=== FILE: wrappers.dfy ===
/** The optional value shared by the ledger, credential and snapshot modules. */
module Wrappers {

  /** A value that may be missing: a failed lookup or a line that does not parse. */
  datatype Option<+T> = None | Some(value: T)
}
